=== FILE: README.md ===
# CommentLinks click engine in Dafny

A model of what happens when a user clicks the arrow marker that the
CommentLinks Visual Studio extension draws next to a link comment
(`CommentLinkAdornment.OnClick`). The clicked link (`CommentLinkTag`) names a
target, and optionally a literal line or a text to search for. The handler
decides what the target is and does one of these things:

- runs a command line as a process;
- navigates within a solution project item or a file on disk;
- launches an absolute URI;
- reports on the status bar that the target could not be found.

Navigating means placing the caret on the literal line, or on the first line
of the file that contains the search text. The marker is given the link's
line as `currentLineNumber`, which the model reads as a 0-based editor line
(the code that creates the marker is not part of this model). The search
counts lines from 1, so the line it skips is 1-based line
`currentLineNumber + 1`, that is 0-based line `currentLineNumber`. It skips that line only for a project item whose path is
the active document's path or its bare file name; that is the document the
link is in.

Every call into Visual Studio, the file system or the operating system is an
input. `Host.HostState` holds these host answers:

- the project item found for a name;
- the active document's path and the active text view;
- the view opened for a path;
- the lines read from a file;
- `File.Exists`, `Uri.IsWellFormedUriString` and `Path.GetFileName`.

A click yields one `Effects.Outcome`:

- a process to start;
- a caret move in a view;
- a URI to launch;
- a status-bar message;
- an exception that the handler catches and writes to the output pane;
- a document opened in the editor, followed by one of the above in its view,
  or by nothing more;
- or nothing at all.

Modules:

- `Nullable`: C# `null`.
- `Text`: .NET string operations. These are ordinal `Contains`, `IndexOfAny`,
  `char.IsWhiteSpace` / `string.IsNullOrWhiteSpace`, and decimal rendering of
  line numbers.
- `LineSearch`: `GetLineNumber`. It is compared with an independently written
  first-match search, `FirstContaining`.
- `RunCommand`: splitting a command line into program and arguments.
- `Host`, `LinkState`, `Effects`: the data model. This covers the host answers,
  the tag and marker, the messages, the failures and the outcomes.
- `Navigation`: the local function `NavigateWithinFile`.
- `Dispatch`: classification of the target, same-file detection and `OnClick`.
- `Scenarios`: worked clicks, one per kind of target.

The model follows the code as written, including these cases:

- A disk file is opened even when no view comes back for it, and then
  nothing more happens: no message is shown. A project item whose path, or
  whose first file name in a solution folder, is null produces no effect at
  all (`Dispatch.SilentClicks`).
- A command line whose first space or tab is its first character is not split.
- The split is at the first single space or tab character. Any further white
  space stays at the head of the arguments. The blank-command test, however,
  uses the full Unicode white-space set.
- A target found only as a file on disk is always searched with the same-file
  flag off, even when it is the file the link is in. So its search can land
  on the link's own line (`Dispatch.OnClick`).
- When a project file is opened rather than reused, the handler computes the
  same-file flag by comparing the two paths. That comparison is always false
  there (`Dispatch.SelectView`).

## Model

| member | source | states |
|---|---|---|
| Text.IsNullOrWhiteSpace | src/CommentLinkAdornment.cs:126 | true exactly for null or for a string all of whose characters are .NET white space |
| Text.ContainsIffOccurs | src/CommentLinkAdornment.cs:43 | the ordinal substring test holds exactly when the text occurs at some position of the line (the empty text occurs everywhere) |
| Text.IndexOfAny | src/CommentLinkAdornment.cs:132 | -1 exactly when no character is a separator; otherwise the index of the first separator |
| Text.Decimal | src/CommentLinkAdornment.cs:103 | the rendered line number is a non-empty run of digits with no leading zero |
| Text.DecimalRoundTrip | src/CommentLinkAdornment.cs:103 | reading the rendered digits back gives the line number |
| LineSearch.ScanFrom | src/CommentLinkAdornment.cs:40-52 | the loop after `done` lines returns the first qualifying line beyond them, or 0 when none qualifies |
| LineSearch.GetLineNumber | src/CommentLinkAdornment.cs:37-55 | 0 exactly when no line qualifies; otherwise a 1-based line within the file that contains the text, is not the skipped self line, and has no qualifying line before it |
| LineSearch.FirstContainingIsFirst | src/CommentLinkAdornment.cs:40-50 | the reference search returns 0 exactly when no line contains the text, and otherwise the first line that does |
| LineSearch.OtherFileFindsFirstContaining | src/CommentLinkAdornment.cs:40-50 | outside the link's own file the search equals the plain first-match search |
| LineSearch.SameFileSkipsOnlySelfLine | src/CommentLinkAdornment.cs:45-48 | in the link's own file the first match is kept unless it is line `currentLineNumber + 1`; then the search resumes below it and returns the next match or 0 |
| LineSearch.SingleOccurrence | src/CommentLinkAdornment.cs:40-54 | a text on exactly one line is found there, except that a same-file search whose only match is the self line finds nothing |
| LinkState.Update | src/CommentLinkAdornment.cs:57-60 | the tag is replaced as a whole and the marker's line number is kept |
| LinkState.UpdateLastWins | src/CommentLinkAdornment.cs:57-60 | two successive updates leave only the second tag |
| RunCommand.Split | src/CommentLinkAdornment.cs:132-141 | program + arguments is the target. The arguments are empty exactly when the target has no space or tab or starts with one. Otherwise the program is non-empty and holds no separator, and the arguments start with the separator |
| RunCommand.SplitIsUnique | src/CommentLinkAdornment.cs:132-141 | any division of the target with those properties is the one the split returns |
| Navigation.NavigateWithinFile | src/CommentLinkAdornment.cs:86-120 | null view: nothing. A literal line wins and moves the caret there, or reports "fewer than N lines". Otherwise a non-blank search moves the caret to the first qualifying line, never the link's own line in the same file; if nothing matches it reports "Could not find". An unreadable file or a refused caret is a caught failure |
| Navigation.LiteralLineIgnoresSearch | src/CommentLinkAdornment.cs:93-106 | with a literal line the outcome does not depend on the search text, the same-file flag or the file contents |
| Navigation.SearchFollowsGetLineNumber | src/CommentLinkAdornment.cs:106-118 | a search reports "not found" exactly when the line search returns 0. It moves the caret to the found line exactly when the view has that line, and throws exactly when the view does not |
| Dispatch.ProjectItemTarget | src/CommentLinkAdornment.cs:155-170 | a solution-folder item takes its first file name and fails when it has none; a null first file name, like a null path, is its own outcome. A miscellaneous file takes the link's own target. Any other item takes its FullPath, and a null path is its own outcome |
| Dispatch.Classify | src/CommentLinkAdornment.cs:124-212 | exactly one kind per tag, in order: command line (blank, or split by `Split`), project item, existing file, well-formed absolute URI, unresolved. Each kind holds exactly when every earlier test failed and its own test holds. A found project item's kind is the one `ProjectItemTarget` gives for that item. A disk file or URI target is the link's target itself |
| Dispatch.SelectView | src/CommentLinkAdornment.cs:175-187 | same file exactly when the active document's path or bare file name equals the path. Then the active view is reused under the active path. Otherwise the file is opened, and the same-file flag is false |
| Dispatch.OnClick | src/CommentLinkAdornment.cs:124-213 | a non-blank command link starts the program and arguments that `Split` gives; a blank one reports "No command to run."; only command links do either. A URI is launched exactly when the link is not a command, no project item is found, no file exists, and the target is a well-formed absolute URI; the URI is the link's target. A document is opened exactly for a disk file, and for a project file when there is an active document and the path matches neither its full path nor its bare file name. A disk file is opened and then navigated in the view opened for the link's target, under that path, with the same-file flag off. A project file goes through `OpenProjectFile`; a project item with a null path has no effect; a solution-folder item with no file names faults. The caret only moves to a line the view has. "Unable to find file" names the link's target |
| Dispatch.OpenProjectFile | src/CommentLinkAdornment.cs:172-196 | faults exactly when there is no active document. The document is opened exactly when the path matches neither the active document's path nor its bare file name, and it is the path that is opened. After that, a missing view reports "Unable to find file" with the link's target, and a present view is navigated under the path and same-file flag `SelectView` chooses. A caret move happens in the active view when the path matches the active document, and otherwise in the view opened for the path |
| Effects.FewerLinesShowsLineNo | src/CommentLinkAdornment.cs:103 | the "fewer than" message ends in "' lines.", and the digits just before that read back as the requested line number |
| Effects.ShownTellsKind | src/CommentLinkAdornment.cs:103-212 | two status messages that read the same are of the same kind: "No command to run.", "fewer than", "Could not find" and "Unable to find file" cannot be mistaken for one another |
| Dispatch.RunCommandIgnoresHost | src/CommentLinkAdornment.cs:124-147 | a command link's outcome is the same under every host state |
| Dispatch.SameFileSearchAvoidsLinkLine | src/CommentLinkAdornment.cs:175-191 | a search in the link's own file (reused active view, same-file flag set) opens no document and never puts the caret on 0-based line `currentLineNumber`, which is the 1-based line `currentLineNumber + 1` that the skip at line 45 protects |
| Dispatch.FileNotFoundCases | src/CommentLinkAdornment.cs:189-212 | "Unable to find file" is reported, after any document is opened, exactly for an unresolved target and for a project file when there is an active document but no view is available |
| Dispatch.SilentClicks | src/CommentLinkAdornment.cs:86-202 | a click has no effect at all exactly in two cases: a project item whose path (or, in a solution folder, first file name) is null, and the reused active view with neither a literal line nor search text. Every disk file, and every project file other than the active document when one exists, is at least opened |
| Scenarios.SplitAfterProgramName | src/CommentLinkAdornment.cs:137-141 | "cmd.exe /c dir" splits into "cmd.exe" and " /c dir" |
| Scenarios.RunCommandScenario | src/CommentLinkAdornment.cs:124-146 | clicking that command link starts "cmd.exe" with " /c dir" under any host |
| Scenarios.LiteralLineScenario | src/CommentLinkAdornment.cs:199-202 | a disk file with a 10-line view and literal line 5 is opened and gets the caret on 0-based line 4 |
| Scenarios.SearchNotFoundScenario | src/CommentLinkAdornment.cs:106-118 | a search for "TODO" in a disk file that lacks it opens the file and reports "Could not find 'TODO' in 'notes.txt'." |
| Scenarios.UriScenario | src/CommentLinkAdornment.cs:204-209 | "https://example.com" with no project item and no file is launched as a URI |

## Left out

- The button's construction and styling (src/CommentLinkAdornment.cs:23-33) and `base.OnClick()` (src/CommentLinkAdornment.cs:66), which raises the button's WPF `Click` event: user-interface only.
- Thread switching and `async` plumbing: each click is modelled as one sequential step.
- The Visual Studio shell lookups behind `OpenFileAsync`, `GetActiveTextView` and `GetActiveView` are modelled only by their results. Those results are the host's `open` function and its `activeView` value. Failures thrown inside these lookups are not modelled.
- `File.ReadAllLines`, `File.Exists`, `Uri.IsWellFormedUriString`, `Path.GetFileName`, `Process.Start`, the status bar and the output pane are I/O. Their answers are inputs and their effects are `Outcome` values.
- Caught exceptions are modelled only for four cases: a null `ActiveDocument`, `FileNames[1]` on an item with no file names, a file that cannot be read during a search, and `ThrowOnFailure` on a refused caret after a search. Other host exceptions, such as one from `FindProjectItem`, are not modelled.
- `SetCaretPos` is modelled as accepting exactly the lines of the view's buffer. `CenterLines` is folded into the caret move.
- `CommentLinkTag` and the parser that produces it are not part of this model. The tag's target is taken to be a non-null string.
- LineSearch.SelfLine: `currentLineNumber + 1` is computed without 32-bit wrap-around. It differs from the C# value only when `currentLineNumber` is `int.MaxValue`. Even then both values equal a line's number only in a file of 2^31 or more lines, and .NET arrays cannot hold that many. The line counter of `GetLineNumber` likewise never wraps.
- Strings are sequences of Unicode scalar values, not UTF-16 code units. `Text.IndexOfAny` therefore counts a character outside the Basic Multilingual Plane as one position where .NET counts two, so after such a character its index is smaller than the .NET one. `RunCommand.Split` uses the index only to cut the string, so the program and arguments it gives are the same as .NET's. Ordinal `Contains` agrees with .NET on every well-formed string; unpaired surrogates cannot be represented.
- src/CommentLinksPackage1.cs: generated GUID and command-id constants with no behaviour.

=== FILE: dispatch.dfy ===
/** `OnClick`: deciding what the clicked link names and carrying it out.
    Targets are tried in a fixed order: a command line, a solution project
    item, a file on disk, an absolute URI; anything else is reported as not
    found. */
module Dispatch {
  import opened Nullable
  import opened Text
  import opened LineSearch
  import opened RunCommand
  import opened Host
  import opened LinkState
  import opened Effects
  import opened Navigation

  /** What the target of a click turned out to be. */
  datatype Target =
    | RunCommandLine(line: CommandLine)
    | NoCommand                    // a run command with a blank target
    | ProjectFile(path: string)
    | ProjectItemWithoutPath       // the item's path or first file name came back null
    | ProjectItemWithoutFiles      // a solution-folder item with no file names
    | DiskFile(path: string)
    | AbsoluteUri(uri: string)
    | Unresolved

  /** A target reached through a project item. */
  predicate IsProjectTarget(t: Target)
  {
    t.ProjectFile? || t.ProjectItemWithoutPath? || t.ProjectItemWithoutFiles?
  }

  /** The path of a project item, by kind: a solution-folder item's first
      file name, a miscellaneous file's own link target, otherwise its
      `FullPath` property. */
  function ProjectItemTarget(item: ProjectItem, fileName: string): (t: Target)
    ensures IsProjectTarget(t)
    ensures item.kind == SolutionFolderItemKind ==>
      if |item.fileNames| == 0 then t == ProjectItemWithoutFiles
      else match item.fileNames[0]
           case Null => t == ProjectItemWithoutPath
           case NonNull(p) => t == ProjectFile(p)
    ensures item.kind == MiscFilesItemKind ==> t == ProjectFile(fileName)
    ensures item.kind != SolutionFolderItemKind && item.kind != MiscFilesItemKind ==>
      match item.fullPath
      case Null => t == ProjectItemWithoutPath
      case NonNull(p) => t == ProjectFile(p)
  {
    if item.kind == SolutionFolderItemKind then
      if |item.fileNames| >= 1 then
        match item.fileNames[0]
        case Null => ProjectItemWithoutPath
        case NonNull(p) => ProjectFile(p)
      else
        ProjectItemWithoutFiles
    else if item.kind == MiscFilesItemKind then
      ProjectFile(fileName)
    else
      match item.fullPath
      case Null => ProjectItemWithoutPath
      case NonNull(p) => ProjectFile(p)
  }

  /** Classification: exactly one kind per tag, the first that applies. */
  function Classify(tag: LinkTag, host: HostState): (t: Target)
    ensures t.RunCommandLine? || t.NoCommand? <==> tag.isRunCommand
    ensures t.NoCommand? <==> tag.isRunCommand && IsNullOrWhiteSpace(NonNull(tag.fileName))
    ensures t.RunCommandLine? ==> t.line.cmd + t.line.args == tag.fileName
    ensures t.RunCommandLine? ==> t.line == Split(tag.fileName)
    ensures IsProjectTarget(t) <==>
      !tag.isRunCommand && host.findProjectItem(tag.fileName).NonNull?
    ensures !tag.isRunCommand && host.findProjectItem(tag.fileName).NonNull? ==>
      t == ProjectItemTarget(host.findProjectItem(tag.fileName).value, tag.fileName)
    ensures t.DiskFile? <==>
      && !tag.isRunCommand && host.findProjectItem(tag.fileName).Null?
      && host.fileExists(tag.fileName)
    ensures t.AbsoluteUri? <==>
      && !tag.isRunCommand && host.findProjectItem(tag.fileName).Null?
      && !host.fileExists(tag.fileName) && host.isWellFormedAbsoluteUri(tag.fileName)
    ensures t.Unresolved? <==>
      && !tag.isRunCommand && host.findProjectItem(tag.fileName).Null?
      && !host.fileExists(tag.fileName) && !host.isWellFormedAbsoluteUri(tag.fileName)
    ensures t.DiskFile? ==> t.path == tag.fileName
    ensures t.AbsoluteUri? ==> t.uri == tag.fileName
  {
    if tag.isRunCommand then
      if IsNullOrWhiteSpace(NonNull(tag.fileName)) then NoCommand
      else RunCommandLine(Split(tag.fileName))
    else
      match host.findProjectItem(tag.fileName)
      case NonNull(item) => ProjectItemTarget(item, tag.fileName)
      case Null =>
        if host.fileExists(tag.fileName) then DiskFile(tag.fileName)
        else if host.isWellFormedAbsoluteUri(tag.fileName) then AbsoluteUri(tag.fileName)
        else Unresolved
  }

  /** The view a project file is shown in, the path used from then on, and
      whether it is the document the link lives in. */
  datatype ViewContext = ViewContext(view: Nullable<View>, filePath: string, sameFile: bool)

  /** A project file that is the active document (by full path or by bare
      file name) reuses the active view; any other file is opened. */
  function SelectView(filePath: string, activeDocPath: string, host: HostState): (c: ViewContext)
    ensures c.sameFile <==> activeDocPath == filePath || host.getFileName(activeDocPath) == filePath
    ensures c.sameFile ==> c.view == host.activeView && c.filePath == activeDocPath
    ensures !c.sameFile ==> c.view == host.open(filePath) && c.filePath == filePath
  {
    if activeDocPath == filePath || host.getFileName(activeDocPath) == filePath then
      ViewContext(host.activeView, activeDocPath, true)
    else
      ViewContext(host.open(filePath), filePath, filePath == activeDocPath)
  }

  /** Show a project file and navigate within it, or report that it could
      not be shown. The active document's view is reused when the file is
      the active document; any other file is opened first. Reading the
      active document's path throws when there is none. */
  function OpenProjectFile(a: Adornment, filePath: string, host: HostState): (r: Outcome)
    ensures host.activeDocPath.Null? <==> r == Fault(NoActiveDocument)
    ensures r.OpenDocument? <==>
      && host.activeDocPath.NonNull?
      && host.activeDocPath.value != filePath && host.getFileName(host.activeDocPath.value) != filePath
    ensures r.OpenDocument? ==> r.path == filePath
    ensures host.activeDocPath.NonNull? ==>
      var ctx := SelectView(filePath, host.activeDocPath.value, host);
      if ctx.view.Null? then r.AfterOpen() == Status(FileNotFound(a.tag.fileName))
      else r.AfterOpen() == NavigateWithinFile(ctx.view, ctx.filePath, a.tag.lineNo, a.tag.searchTerm,
                                               ctx.sameFile, a.currentLineNumber, host.readAllLines)
    ensures host.activeDocPath.NonNull? && r.AfterOpen().MoveCaret? ==>
      if r.OpenDocument? then host.open(filePath) == NonNull(r.AfterOpen().view)
      else host.activeView == NonNull(r.AfterOpen().view)
  {
    match host.activeDocPath
    case Null => Fault(NoActiveDocument)
    case NonNull(activeDocPath) =>
      var ctx := SelectView(filePath, activeDocPath, host);
      var shown :=
        if ctx.view.NonNull? then
          NavigateWithinFile(ctx.view, ctx.filePath, a.tag.lineNo, a.tag.searchTerm, ctx.sameFile,
                             a.currentLineNumber, host.readAllLines)
        else
          Status(FileNotFound(a.tag.fileName));
      // `sameFile` is set exactly when the active view was reused.
      if ctx.sameFile then shown else OpenDocument(filePath, shown)
  }

  /** One click on the marker. */
  function OnClick(a: Adornment, host: HostState): (r: Outcome)
    ensures a.tag.isRunCommand ==>
      if IsNullOrWhiteSpace(NonNull(a.tag.fileName)) then r == Status(NoCommandToRun)
      else r == StartProcess(Split(a.tag.fileName).cmd, Split(a.tag.fileName).args)
    ensures r.StartProcess? || r == Status(NoCommandToRun) <==> a.tag.isRunCommand
    ensures r.LaunchUri? <==>
      && !a.tag.isRunCommand && host.findProjectItem(a.tag.fileName).Null?
      && !host.fileExists(a.tag.fileName) && host.isWellFormedAbsoluteUri(a.tag.fileName)
    ensures r.LaunchUri? ==> r.uri == a.tag.fileName
    // A document is opened for every disk file and for every project file
    // that is not the active document.
    ensures r.OpenDocument? <==>
      || Classify(a.tag, host).DiskFile?
      || (&& Classify(a.tag, host).ProjectFile? && host.activeDocPath.NonNull?
          && !SelectView(Classify(a.tag, host).path, host.activeDocPath.value, host).sameFile)
    ensures r.OpenDocument? ==> !r.next.OpenDocument?
    ensures r.AfterOpen().MoveCaret? ==> AcceptsCaret(r.AfterOpen().view, r.AfterOpen().line)
    ensures r.AfterOpen().Status? && r.AfterOpen().message.FileNotFound? ==>
      r.AfterOpen().message.fileName == a.tag.fileName
    // Where each kind of target ends up.
    ensures Classify(a.tag, host).DiskFile? ==>
      r == OpenDocument(a.tag.fileName,
                        NavigateWithinFile(host.open(a.tag.fileName), a.tag.fileName, a.tag.lineNo,
                                           a.tag.searchTerm, false, a.currentLineNumber, host.readAllLines))
    ensures Classify(a.tag, host).ProjectFile? ==> r == OpenProjectFile(a, Classify(a.tag, host).path, host)
    ensures Classify(a.tag, host).ProjectItemWithoutPath? ==> r == NoEffect
    ensures Classify(a.tag, host).ProjectItemWithoutFiles? ==> r == Fault(NoSolutionFolderFile)
  {
    var tag := a.tag;
    match Classify(tag, host)
    case NoCommand => Status(NoCommandToRun)
    case RunCommandLine(line) => StartProcess(line.cmd, line.args)
    case ProjectFile(p) => OpenProjectFile(a, p, host)
    case ProjectItemWithoutPath => NoEffect
    case ProjectItemWithoutFiles => Fault(NoSolutionFolderFile)
    case DiskFile(p) =>
      OpenDocument(p, NavigateWithinFile(host.open(p), p, tag.lineNo, tag.searchTerm, false,
                                         a.currentLineNumber, host.readAllLines))
    case AbsoluteUri(u) => LaunchUri(u)
    case Unresolved => Status(FileNotFound(tag.fileName))
  }

  /** A command line is run without asking the host anything: two hosts
      give the same outcome. */
  lemma RunCommandIgnoresHost(a: Adornment, host1: HostState, host2: HostState)
    requires a.tag.isRunCommand
    ensures OnClick(a, host1) == OnClick(a, host2)
  {
  }

  /** The view a project file ends up in, when the host has an active document. */
  function ProjectViewContext(a: Adornment, host: HostState): Nullable<ViewContext>
  {
    match Classify(a.tag, host)
    case ProjectFile(p) =>
      if host.activeDocPath.NonNull? then NonNull(SelectView(p, host.activeDocPath.value, host)) else Null
    case _ => Null
  }

  /** A text search in the active document, reached through the project,
      opens nothing and never puts the caret on 1-based line
      `currentLineNumber + 1`, which is 0-based line `currentLineNumber`. */
  lemma SameFileSearchAvoidsLinkLine(a: Adornment, host: HostState)
    requires a.tag.lineNo <= 0
    requires ProjectViewContext(a, host).NonNull? && ProjectViewContext(a, host).value.sameFile
    ensures !OnClick(a, host).OpenDocument?
    ensures OnClick(a, host).MoveCaret? ==> OnClick(a, host).line != a.currentLineNumber
  {
  }

  /** "Unable to find file" is reported, after any open, for an unresolved
      target and for a project file the host gives no view for, and for
      nothing else. */
  lemma FileNotFoundCases(a: Adornment, host: HostState)
    ensures OnClick(a, host).AfterOpen() == Status(FileNotFound(a.tag.fileName)) <==>
      || Classify(a.tag, host).Unresolved?
      || (ProjectViewContext(a, host).NonNull? && ProjectViewContext(a, host).value.view.Null?)
  {
  }

  /** The clicks that have no effect at all: a project item whose path (or
      first file name) is null, and the reused active view with neither a literal line nor
      search text. A disk file always has its document opened. */
  lemma SilentClicks(a: Adornment, host: HostState)
    ensures OnClick(a, host) == NoEffect <==>
      || Classify(a.tag, host).ProjectItemWithoutPath?
      || (&& ProjectViewContext(a, host).NonNull?
          && ProjectViewContext(a, host).value.sameFile
          && ProjectViewContext(a, host).value.view.NonNull?
          && NoDestination(a.tag.lineNo, a.tag.searchTerm))
  {
  }
}

=== FILE: effects.dfy ===
/** What one click does, as a value: the process or URI it launches, the
    document it opens, the caret move, the status-bar message, or the
    exception it catches. */
module Effects {
  import opened Text
  import opened Host

  /** The status-bar messages of the click handler. */
  datatype StatusMessage =
    | NoCommandToRun
    | FewerLines(filePath: string, lineNo: nat)
    | SearchNotFound(searchText: string, filePath: string)
    | FileNotFound(fileName: string)
  {
    /** The message as shown. */
    function Shown(): string
    {
      match this
      case NoCommandToRun => "No command to run."
      case FewerLines(f, n) => "'" + f + "' contains fewer than '" + Decimal(n) + "' lines."
      case SearchNotFound(s, f) => "Could not find '" + s + "' in '" + f + "'."
      case FileNotFound(f) => "Unable to find file '" + f + "'"
    }
  }

  /** The exceptions the handler catches and writes to the output pane. */
  datatype Failure =
    | NoActiveDocument       // `ActiveDocument` is null when its `FullName` is read
    | NoSolutionFolderFile   // `FileNames[1]` of an item that has no file names
    | UnreadableFile(path: string)   // `File.ReadAllLines` throws
    | CaretRejected(line: nat)       // `ThrowOnFailure` on a refused `SetCaretPos`

  datatype Outcome =
    | StartProcess(cmd: string, args: string)   // `Process.Start(cmd, args)`
    | MoveCaret(view: View, line: nat)          // `SetCaretPos(line, 0)` then `CenterLines(line, 1)`
    | LaunchUri(uri: string)                    // shell-execute the URI
    | Status(message: StatusMessage)            // `StatusBarHelper.ShowMessageAsync`
    | Fault(failure: Failure)                   // caught, written to the output pane
    | NoEffect
    | OpenDocument(path: string, next: Outcome)  // `OpenDocument(path)`, then `next` in the view it gives
  {
    /** What happens after the document is opened, or the whole outcome
        when nothing is opened. */
    function AfterOpen(): Outcome
    {
      if OpenDocument? then next else this
    }
  }

  /** Each kind of message reads differently from its first character on,
      so a shown message tells which case produced it. */
  lemma ShownTellsKind(m1: StatusMessage, m2: StatusMessage)
    requires m1.Shown() == m2.Shown()
    ensures m1.NoCommandToRun? == m2.NoCommandToRun?
    ensures m1.FewerLines? == m2.FewerLines?
    ensures m1.SearchNotFound? == m2.SearchNotFound?
    ensures m1.FileNotFound? == m2.FileNotFound?
  {
    assert m1.Shown()[0] == m2.Shown()[0];
  }

  /** The count a "fewer than" message shows reads back as the requested
      line number. */
  lemma FewerLinesShowsLineNo(filePath: string, lineNo: nat)
    ensures
      var t := FewerLines(filePath, lineNo).Shown();
      var digits := t[|t| - 8 - |Decimal(lineNo)|..|t| - 8];
      && t[|t| - 8..] == "' lines."
      && (forall i :: 0 <= i < |digits| ==> IsDigit(digits[i]))
      && DigitsValue(digits) == lineNo
  {
    var t := FewerLines(filePath, lineNo).Shown();
    var d := Decimal(lineNo);
    assert t == ("'" + filePath + "' contains fewer than '") + d + "' lines.";
    assert t[|t| - 8 - |d|..|t| - 8] == d;
    DecimalRoundTrip(lineNo);
  }
}

=== FILE: host.dfy ===
/** What the click handler asks of Visual Studio and the operating system,
    reduced to the answers it gets back. Every host call is an input here:
    the handler never sees more of the host than these values. */
module Host {
  import opened Nullable

  /** An editor text view (`IVsTextView`): an identity and the number of
      lines in its buffer. */
  datatype View = View(id: nat, lineCount: nat)

  /** `SetCaretPos(line, 0)` returns `S_OK` exactly when the buffer has a
      0-based line `line`; column 0 exists on every line. */
  predicate AcceptsCaret(v: View, line: int)
  {
    0 <= line < v.lineCount
  }

  /** `ProjectItem.Kind` of an item inside a solution folder. */
  const SolutionFolderItemKind: string := "{66A26722-8FB5-11D2-AA7E-00C04F688DDE}"

  /** `ProjectItem.Kind` of a miscellaneous file (open, but not part of the solution). */
  const MiscFilesItemKind: string := "{66A2671F-8FB5-11D2-AA7E-00C04F688DDE}"

  /** A solution `ProjectItem`: its kind, its `FileNames` list (1-based in
      the host API, 0-based here; an entry may be null) and its `FullPath`
      property, which may be missing. */
  datatype ProjectItem = ProjectItem(kind: string, fileNames: seq<Nullable<string>>, fullPath: Nullable<string>)

  /** The host as the handler observes it during one click.
      - `findProjectItem`: `Solution.FindProjectItem`;
      - `activeDocPath`: `ActiveDocument.FullName`, null when no document is active;
      - `activeView`: `GetActiveTextView()`;
      - `open`: the view `OpenDocument` yields for a path, if any;
      - `readAllLines`: `File.ReadAllLines`, null when reading fails;
      - `fileExists`: `File.Exists`;
      - `isWellFormedAbsoluteUri`: `Uri.IsWellFormedUriString(_, UriKind.Absolute)`;
      - `getFileName`: `Path.GetFileName`. */
  datatype HostState = HostState(
    findProjectItem: string -> Nullable<ProjectItem>,
    activeDocPath: Nullable<string>,
    activeView: Nullable<View>,
    open: string -> Nullable<View>,
    readAllLines: string -> Nullable<seq<string>>,
    fileExists: string -> bool,
    isWellFormedAbsoluteUri: string -> bool,
    getFileName: string -> string)
}

=== FILE: line_search.dfy ===
/** `GetLineNumber`: the search for the first line of a file that contains a
    literal piece of text, skipping the link's own line when the link points
    into the file it lives in. Lines are numbered from 1; 0 means "not found". */
module LineSearch {
  import opened Text

  /** The 1-based number of the line a same-file search must not return:
      `currentLineNumber + 1`, which is the 0-based line `currentLineNumber`
      the marker records for the link. */
  function SelfLine(currentLineNumber: int): int
  {
    currentLineNumber + 1
  }

  /** Line `n` (1-based) exists and contains `content`. */
  predicate LineContains(lines: seq<string>, content: string, n: int)
  {
    1 <= n <= |lines| && Contains(lines[n - 1], content)
  }

  /** Line `n` (1-based) is an acceptable answer: it exists, contains
      `content`, and is not the skipped self line of a same-file search. */
  predicate Qualifies(lines: seq<string>, content: string, withinSameFile: bool,
                      currentLineNumber: int, n: int)
  {
    LineContains(lines, content, n) && !(withinSameFile && n == SelfLine(currentLineNumber))
  }

  /** The scan after the first `done` lines: the loop of `GetLineNumber`
      with its counter at `done`. */
  function ScanFrom(lines: seq<string>, content: string, withinSameFile: bool,
                    currentLineNumber: int, done: nat): (r: nat)
    requires done <= |lines|
    ensures r == 0 || done < r <= |lines|
    ensures r == 0 ==>
      forall n :: done < n <= |lines| ==> !Qualifies(lines, content, withinSameFile, currentLineNumber, n)
    ensures r != 0 ==> Qualifies(lines, content, withinSameFile, currentLineNumber, r)
    ensures r != 0 ==>
      forall n :: done < n < r ==> !Qualifies(lines, content, withinSameFile, currentLineNumber, n)
    decreases |lines| - done
  {
    if done == |lines| then 0
    else
      var lineNumber := done + 1;
      if Contains(lines[done], content) then
        if withinSameFile && lineNumber == SelfLine(currentLineNumber) then
          ScanFrom(lines, content, withinSameFile, currentLineNumber, lineNumber)
        else
          lineNumber
      else
        ScanFrom(lines, content, withinSameFile, currentLineNumber, lineNumber)
  }

  /** The first qualifying line of the file, or 0 when no line qualifies. */
  function GetLineNumber(lines: seq<string>, content: string, withinSameFile: bool,
                         currentLineNumber: int): (r: nat)
    ensures r <= |lines|
    ensures r == 0 <==>
      forall n :: 1 <= n <= |lines| ==> !Qualifies(lines, content, withinSameFile, currentLineNumber, n)
    ensures r != 0 ==> Qualifies(lines, content, withinSameFile, currentLineNumber, r)
    ensures r != 0 ==>
      forall n :: 1 <= n < r ==> !Qualifies(lines, content, withinSameFile, currentLineNumber, n)
    ensures r != 0 && withinSameFile ==> r != SelfLine(currentLineNumber)
  {
    ScanFrom(lines, content, withinSameFile, currentLineNumber, 0)
  }

  /** Reference definition, written independently of the scan: the 1-based
      number of the first line containing `content`, or 0, found by
      peeling lines off the front of the file. */
  function FirstContaining(lines: seq<string>, content: string): (r: nat)
    ensures r <= |lines|
  {
    if |lines| == 0 then 0
    else if Contains(lines[0], content) then 1
    else
      var r := FirstContaining(lines[1..], content);
      if r == 0 then 0 else r + 1
  }

  /** `FirstContaining` finds the first line containing `content`. */
  lemma {:induction false} FirstContainingIsFirst(lines: seq<string>, content: string)
    ensures FirstContaining(lines, content) == 0 <==>
      forall n :: 1 <= n <= |lines| ==> !LineContains(lines, content, n)
    ensures FirstContaining(lines, content) != 0 ==>
      LineContains(lines, content, FirstContaining(lines, content))
    ensures forall n :: 1 <= n < FirstContaining(lines, content) ==> !LineContains(lines, content, n)
  {
    if |lines| > 0 {
      if Contains(lines[0], content) {
        assert LineContains(lines, content, 1);
      } else {
        var tail := lines[1..];
        FirstContainingIsFirst(tail, content);
        assert !LineContains(lines, content, 1);
        assert forall n :: 2 <= n <= |lines| ==>
          (LineContains(lines, content, n) <==> LineContains(tail, content, n - 1));
        assert forall m :: 1 <= m <= |tail| ==>
          (LineContains(tail, content, m) <==> LineContains(lines, content, m + 1));
      }
    }
  }

  /** Outside the link's own file the search is the plain first-match search. */
  lemma OtherFileFindsFirstContaining(lines: seq<string>, content: string, currentLineNumber: int)
    ensures GetLineNumber(lines, content, false, currentLineNumber) == FirstContaining(lines, content)
  {
    FirstContainingIsFirst(lines, content);
    assert forall n :: Qualifies(lines, content, false, currentLineNumber, n) <==> LineContains(lines, content, n);
  }

  /** Inside the link's own file the self line is the only line treated
      differently: when the plain first match is elsewhere it is kept, and
      when it is the self line the search resumes on the lines below it. */
  lemma SameFileSkipsOnlySelfLine(lines: seq<string>, content: string, currentLineNumber: int)
    ensures
      var f := FirstContaining(lines, content);
      var r := GetLineNumber(lines, content, true, currentLineNumber);
      if f != SelfLine(currentLineNumber) then r == f
      else
        var g := FirstContaining(lines[f..], content);
        r == if g == 0 then 0 else f + g
  {
    var f := FirstContaining(lines, content);
    var cur := currentLineNumber;
    FirstContainingIsFirst(lines, content);
    if f != SelfLine(cur) {
      assert forall n :: 1 <= n <= f ==>
        (Qualifies(lines, content, true, cur, n) <==> LineContains(lines, content, n));
    } else {
      var rest := lines[f..];
      FirstContainingIsFirst(rest, content);
      assert forall n :: 1 <= n <= |rest| ==>
        (LineContains(rest, content, n) <==> Qualifies(lines, content, true, cur, f + n));
      assert forall n :: f < n <= |lines| ==>
        (Qualifies(lines, content, true, cur, n) <==> LineContains(rest, content, n - f));
      assert forall n :: 1 <= n <= f ==> !Qualifies(lines, content, true, cur, n);
    }
  }

  /** A text that occurs on exactly one line is found on that line, unless
      that line is the self line of a same-file search, when nothing is found. */
  lemma SingleOccurrence(lines: seq<string>, content: string, withinSameFile: bool,
                         currentLineNumber: int, n: int)
    requires LineContains(lines, content, n)
    requires forall m :: m != n ==> !LineContains(lines, content, m)
    ensures GetLineNumber(lines, content, withinSameFile, currentLineNumber)
         == if withinSameFile && n == SelfLine(currentLineNumber) then 0 else n
  {
    if !(withinSameFile && n == SelfLine(currentLineNumber)) {
      assert Qualifies(lines, content, withinSameFile, currentLineNumber, n);
    }
  }
}

=== FILE: link_state.dfy ===
/** The clickable marker: the parsed link it carries and the line of the
    comment it sits on. */
module LinkState {
  import opened Nullable

  /** The parsed link (`CommentLinkTag`) as the click handler reads it:
      the target, a literal 1-based line (0 or less when absent), the text
      to search for and whether the target is a command line. */
  datatype LinkTag = LinkTag(fileName: string, lineNo: int, searchTerm: Nullable<string>, isRunCommand: bool)

  /** The marker: its current tag and the line number it was created for. */
  datatype Adornment = Adornment(tag: LinkTag, currentLineNumber: int)

  /** Replace the tag as a whole; the marker's line number is kept. */
  function Update(a: Adornment, dataTag: LinkTag): (a': Adornment)
    ensures a'.tag == dataTag
    ensures a'.currentLineNumber == a.currentLineNumber
  {
    a.(tag := dataTag)
  }

  /** Only the last of two updates is visible: no field of an earlier tag survives. */
  lemma UpdateLastWins(a: Adornment, first: LinkTag, second: LinkTag)
    ensures Update(Update(a, first), second) == Update(a, second)
  {
  }
}

=== FILE: navigation.dfy ===
/** `NavigateWithinFile`: moving the caret of an open view to the link's
    literal line or to the first line that contains its search text. */
module Navigation {
  import opened Nullable
  import opened Text
  import opened LineSearch
  import opened Host
  import opened Effects

  /** Nothing to navigate to: no literal line and no search text worth
      looking for. */
  predicate NoDestination(lineNo: int, searchText: Nullable<string>)
  {
    lineNo <= 0 && IsNullOrWhiteSpace(searchText)
  }

  /** A literal line wins over search text; a search reads the file from
      disk and, when `sameFile` holds, skips 1-based line
      `currentLineNumber + 1`, which is 0-based line `currentLineNumber`. */
  function NavigateWithinFile(view: Nullable<View>, filePath: string, lineNo: int,
                              searchText: Nullable<string>, sameFile: bool, currentLineNumber: int,
                              readAllLines: string -> Nullable<seq<string>>): (r: Outcome)
    // Which effects can happen at all.
    ensures !r.StartProcess? && !r.LaunchUri? && !r.OpenDocument?
    ensures r == NoEffect <==> view.Null? || NoDestination(lineNo, searchText)
    // The caret only ever goes to a line the view's buffer has.
    ensures r.MoveCaret? ==> view == NonNull(r.view) && AcceptsCaret(r.view, r.line)
    // Literal line.
    ensures view.NonNull? && lineNo > 0 ==>
      r == (if AcceptsCaret(view.value, lineNo - 1) then MoveCaret(view.value, lineNo - 1)
            else Status(FewerLines(filePath, lineNo)))
    // Search: the caret lands on the first qualifying line of the file on disk.
    ensures r.MoveCaret? && lineNo <= 0 ==>
      && !IsNullOrWhiteSpace(searchText)
      && readAllLines(filePath).NonNull?
      && Qualifies(readAllLines(filePath).value, searchText.value, sameFile, currentLineNumber, r.line + 1)
      && forall n :: 1 <= n <= r.line ==>
           !Qualifies(readAllLines(filePath).value, searchText.value, sameFile, currentLineNumber, n)
    ensures r.MoveCaret? && lineNo <= 0 && sameFile ==> r.line != currentLineNumber
    ensures r.Status? && lineNo <= 0 ==>
      && !IsNullOrWhiteSpace(searchText)
      && r.message == SearchNotFound(searchText.value, filePath)
      && readAllLines(filePath).NonNull?
      && forall n :: !Qualifies(readAllLines(filePath).value, searchText.value, sameFile, currentLineNumber, n)
    // Exceptions: an unreadable file, or a found line the view refuses.
    ensures r.Fault? ==>
      && view.NonNull? && lineNo <= 0 && !IsNullOrWhiteSpace(searchText)
      && match r.failure
         case UnreadableFile(p) => p == filePath && readAllLines(filePath).Null?
         case CaretRejected(line) =>
           && readAllLines(filePath).NonNull?
           && Qualifies(readAllLines(filePath).value, searchText.value, sameFile, currentLineNumber, line + 1)
           && !AcceptsCaret(view.value, line)
         case _ => false
  {
    match view
    case Null => NoEffect
    case NonNull(v) =>
      if lineNo > 0 then
        if AcceptsCaret(v, lineNo - 1) then MoveCaret(v, lineNo - 1)
        else Status(FewerLines(filePath, lineNo))
      else if !IsNullOrWhiteSpace(searchText) then
        match readAllLines(filePath)
        case Null => Fault(UnreadableFile(filePath))
        case NonNull(lines) =>
          var foundLineNo := GetLineNumber(lines, searchText.value, sameFile, currentLineNumber);
          if foundLineNo > 0 then
            if AcceptsCaret(v, foundLineNo - 1) then MoveCaret(v, foundLineNo - 1)
            else Fault(CaretRejected(foundLineNo - 1))
          else
            Status(SearchNotFound(searchText.value, filePath))
      else
        NoEffect
  }

  /** With a literal line the search text is never looked at and the file
      is never read. */
  lemma LiteralLineIgnoresSearch(view: Nullable<View>, filePath: string, lineNo: int,
                                 searchText1: Nullable<string>, searchText2: Nullable<string>,
                                 sameFile1: bool, sameFile2: bool, currentLineNumber: int,
                                 read1: string -> Nullable<seq<string>>, read2: string -> Nullable<seq<string>>)
    requires lineNo > 0
    ensures NavigateWithinFile(view, filePath, lineNo, searchText1, sameFile1, currentLineNumber, read1)
         == NavigateWithinFile(view, filePath, lineNo, searchText2, sameFile2, currentLineNumber, read2)
  {
  }

  /** A search in a readable file ends on the line `GetLineNumber` reports
      when the view has it, throws when the view does not, and says the
      text was not found when it reports 0. */
  lemma SearchFollowsGetLineNumber(v: View, filePath: string, lineNo: int, searchText: string,
                                   sameFile: bool, currentLineNumber: int,
                                   readAllLines: string -> Nullable<seq<string>>)
    requires lineNo <= 0 && !IsNullOrWhiteSpace(NonNull(searchText))
    requires readAllLines(filePath).NonNull?
    ensures
      var found := GetLineNumber(readAllLines(filePath).value, searchText, sameFile, currentLineNumber);
      var r := NavigateWithinFile(NonNull(v), filePath, lineNo, NonNull(searchText), sameFile,
                                  currentLineNumber, readAllLines);
      && (found == 0 <==> r == Status(SearchNotFound(searchText, filePath)))
      && (r.MoveCaret? <==> found > 0 && AcceptsCaret(v, found - 1))
      && (r.MoveCaret? ==> r.line + 1 == found)
      && (r.Fault? <==> found > 0 && !AcceptsCaret(v, found - 1))
  {
  }
}

=== FILE: nullable.dfy ===
/** A C# reference that may be null: the model's stand-in for every `null`
    the click handler tests for (a missing view, project item, path or
    search term). */
module Nullable {

  datatype Nullable<+T> = Null | NonNull(value: T)
}

=== FILE: run_command.dfy ===
/** Splitting a run-command target into the program and its arguments. */
module RunCommand {
  import opened Text

  /** The characters `IndexOfAny` looks for: space and tab. */
  const Separators: set<char> := {' ', '\t'}

  datatype CommandLine = CommandLine(cmd: string, args: string)

  predicate HasNoSeparator(s: string)
  {
    forall i :: 0 <= i < |s| ==> s[i] !in Separators
  }

  /** Split at the first space or tab, which stays at the head of the
      arguments. A target with no separator, or whose first separator is
      its first character, is run whole with empty arguments. */
  function Split(target: string): (c: CommandLine)
    ensures c.cmd + c.args == target
    ensures c.args == "" <==> HasNoSeparator(target) || (0 < |target| && target[0] in Separators)
    ensures c.args != "" ==> 0 < |c.cmd| && HasNoSeparator(c.cmd) && c.args[0] in Separators
  {
    var spaceIndex := IndexOfAny(target, Separators);
    if spaceIndex > 0 then
      CommandLine(target[..spaceIndex], target[spaceIndex..])
    else
      CommandLine(target, "")
  }

  /** The properties `Split` promises pin its result down: any division
      of the target with them is the one `Split` returns. */
  lemma SplitIsUnique(target: string, c: CommandLine)
    requires c.cmd + c.args == target
    requires c.args == "" <==> HasNoSeparator(target) || (0 < |target| && target[0] in Separators)
    requires c.args != "" ==> 0 < |c.cmd| && HasNoSeparator(c.cmd) && c.args[0] in Separators
    ensures c == Split(target)
  {
    var s := Split(target);
    if c.args != "" {
      assert s.args != "";
      assert target[|c.cmd|] == c.args[0];
      assert target[|s.cmd|] == s.args[0];
      assert forall i :: 0 <= i < |c.cmd| ==> target[i] == c.cmd[i];
      assert forall i :: 0 <= i < |s.cmd| ==> target[i] == s.cmd[i];
      assert |c.cmd| == |s.cmd|;
      assert c.cmd == target[..|c.cmd|];
      assert s.cmd == target[..|s.cmd|];
    }
  }
}

=== FILE: scenarios.dfy ===
/** Worked clicks: one per kind of target, against any host that answers
    the lookups as stated. */
module Scenarios {
  import opened Nullable
  import opened Text
  import opened RunCommand
  import opened Host
  import opened LinkState
  import opened Effects
  import opened LineSearch
  import opened Navigation
  import opened Dispatch

  /** A command line is split after the program name; the arguments keep
      their leading space. */
  lemma SplitAfterProgramName()
    ensures Split("cmd.exe /c dir") == CommandLine("cmd.exe", " /c dir")
  {
    var target := "cmd.exe /c dir";
    assert target == "cmd.exe" + " /c dir";
    assert HasNoSeparator("cmd.exe");
    assert target[7] == ' ';
    SplitIsUnique(target, CommandLine("cmd.exe", " /c dir"));
  }

  /** Clicking a command link starts the program with those arguments,
      whatever the host. */
  lemma RunCommandScenario(host: HostState, currentLineNumber: int)
    ensures OnClick(Adornment(LinkTag("cmd.exe /c dir", 0, Null, true), currentLineNumber), host)
         == StartProcess("cmd.exe", " /c dir")
  {
    var target := "cmd.exe /c dir";
    assert !IsWhiteSpace(target[0]);
    assert !IsNullOrWhiteSpace(NonNull(target));
    SplitAfterProgramName();
    assert Classify(LinkTag(target, 0, Null, true), host) == RunCommandLine(CommandLine("cmd.exe", " /c dir"));
  }

  /** A file found only on disk is opened, and a literal line inside its
      view gets the caret. */
  lemma LiteralLineScenario(host: HostState, v: View, currentLineNumber: int)
    requires host.findProjectItem("notes.txt").Null? && host.fileExists("notes.txt")
    requires host.open("notes.txt") == NonNull(v) && v.lineCount == 10
    ensures OnClick(Adornment(LinkTag("notes.txt", 5, Null, false), currentLineNumber), host)
         == OpenDocument("notes.txt", MoveCaret(v, 4))
  {
  }

  /** A file found only on disk is opened; a search whose text is on no
      line of it reports the search text and the file. */
  lemma SearchNotFoundScenario(host: HostState, v: View, lines: seq<string>)
    requires host.findProjectItem("notes.txt").Null? && host.fileExists("notes.txt")
    requires host.open("notes.txt") == NonNull(v)
    requires host.readAllLines("notes.txt") == NonNull(lines)
    requires forall i :: 0 <= i < |lines| ==> !Contains(lines[i], "TODO")
    ensures OnClick(Adornment(LinkTag("notes.txt", 0, NonNull("TODO"), false), 2), host)
         == OpenDocument("notes.txt", Status(SearchNotFound("TODO", "notes.txt")))
  {
    assert !IsWhiteSpace("TODO"[0]);
    assert GetLineNumber(lines, "TODO", false, 2) == 0;
    SearchFollowsGetLineNumber(v, "notes.txt", 0, "TODO", false, 2, host.readAllLines);
  }

  /** A well-formed absolute URI that is neither a project item nor a file is launched. */
  lemma UriScenario(host: HostState, currentLineNumber: int)
    requires host.findProjectItem("https://example.com").Null?
    requires !host.fileExists("https://example.com")
    requires host.isWellFormedAbsoluteUri("https://example.com")
    ensures OnClick(Adornment(LinkTag("https://example.com", 0, Null, false), currentLineNumber), host)
         == LaunchUri("https://example.com")
  {
  }
}

=== FILE: text.dfy ===
/** The .NET string and character operations the click handler relies on,
    with ordinal (exact, case-sensitive) comparison throughout. */
module Text {
  import opened Nullable

  /** `char.IsWhiteSpace`: the Unicode space separators, the line and
      paragraph separators, and the control characters U+0009 to U+000D
      and U+0085. */
  predicate IsWhiteSpace(c: char)
  {
    || c == ' '
    || ('\t' <= c <= '\r')
    || c == '\U{85}'
    || c == '\U{A0}'
    || c == '\U{1680}'
    || ('\U{2000}' <= c <= '\U{200A}')
    || c == '\U{2028}'
    || c == '\U{2029}'
    || c == '\U{202F}'
    || c == '\U{205F}'
    || c == '\U{3000}'
  }

  /** True iff every character of `s` is white space (vacuously for ""). */
  function AllWhiteSpace(s: string): (b: bool)
    ensures b <==> forall i :: 0 <= i < |s| ==> IsWhiteSpace(s[i])
  {
    if |s| == 0 then true
    else IsWhiteSpace(s[0]) && AllWhiteSpace(s[1..])
  }

  /** `string.IsNullOrWhiteSpace`. */
  function IsNullOrWhiteSpace(s: Nullable<string>): (b: bool)
    ensures b <==> s.Null? || forall i :: 0 <= i < |s.value| ==> IsWhiteSpace(s.value[i])
  {
    match s
    case Null => true
    case NonNull(v) => AllWhiteSpace(v)
  }

  predicate StartsWith(s: string, prefix: string)
  {
    |prefix| <= |s| && s[..|prefix|] == prefix
  }

  /** `s` holds `t` starting at index `k`. */
  ghost predicate OccursAt(s: string, t: string, k: int)
  {
    0 <= k && k + |t| <= |s| && s[k..k + |t|] == t
  }

  /** Ordinal `string.Contains`: `t` is a contiguous substring of `s`.
      The empty string is contained in every string. */
  predicate Contains(s: string, t: string)
    decreases |s|
  {
    StartsWith(s, t) || (|s| > 0 && Contains(s[1..], t))
  }

  /** `Contains` agrees with the positional definition of a substring. */
  lemma {:induction false} ContainsIffOccurs(s: string, t: string)
    ensures Contains(s, t) <==> exists k :: OccursAt(s, t, k)
    decreases |s|
  {
    if Contains(s, t) {
      if StartsWith(s, t) {
        assert OccursAt(s, t, 0);
      } else {
        ContainsIffOccurs(s[1..], t);
        var k :| OccursAt(s[1..], t, k);
        assert s[1..][k..k + |t|] == s[k + 1..k + 1 + |t|];
        assert OccursAt(s, t, k + 1);
      }
    }
    if exists k :: OccursAt(s, t, k) {
      var k :| OccursAt(s, t, k);
      if k == 0 {
        assert StartsWith(s, t);
      } else {
        assert s[1..][k - 1..k - 1 + |t|] == s[k..k + |t|];
        assert OccursAt(s[1..], t, k - 1);
        ContainsIffOccurs(s[1..], t);
      }
    }
  }

  /** `string.IndexOfAny`: the index of the first character of `s` that is
      in `chars`, or -1 when there is none. */
  function IndexOfAny(s: string, chars: set<char>): (r: int)
    ensures -1 <= r < |s|
    ensures r == -1 <==> forall i :: 0 <= i < |s| ==> s[i] !in chars
    ensures 0 <= r ==> s[r] in chars && forall i :: 0 <= i < r ==> s[i] !in chars
  {
    if |s| == 0 then -1
    else if s[0] in chars then 0
    else
      var r := IndexOfAny(s[1..], chars);
      if r == -1 then -1 else r + 1
  }

  predicate IsDigit(c: char)
  {
    '0' <= c <= '9'
  }

  /** The value of a string of decimal digits (0 for ""). */
  function DigitsValue(s: string): nat
    requires forall i :: 0 <= i < |s| ==> IsDigit(s[i])
  {
    if |s| == 0 then 0
    else
      assert IsDigit(s[|s| - 1]);
      var d: nat := s[|s| - 1] as int - '0' as int;
      10 * DigitsValue(s[..|s| - 1]) + d
  }

  /** `int.ToString()` for a non-negative number: its decimal digits, with
      no sign, no group separator and no leading zero. */
  function Decimal(n: nat): (s: string)
    ensures 0 < |s|
    ensures forall i :: 0 <= i < |s| ==> IsDigit(s[i])
    ensures |s| > 1 ==> s[0] != '0'
  {
    var last := [('0' as int + n % 10) as char];
    if n < 10 then last else Decimal(n / 10) + last
  }

  /** Reading the rendered digits back gives the number. */
  lemma {:induction false} DecimalRoundTrip(n: nat)
    ensures DigitsValue(Decimal(n)) == n
  {
    var s := Decimal(n);
    if n >= 10 {
      DecimalRoundTrip(n / 10);
      assert s[..|s| - 1] == Decimal(n / 10);
    }
  }
}
